=== FILE: README.md ===
# XKCD downloader, modelled in Dafny

`xkcd.py` reads a comic number `N` or a range `A-B`. It fetches each comic
page of the range through a pool of green threads, finds the comic image and
title on the page, and saves the image as
`comics/{num:04} - XKCD - {title}.png`. At the end it prints how many comics
were saved, how many failed and how many were skipped.

This project models the deterministic core of that script. The model covers:

- the per-comic string pipeline of `_save_comic`: the regular-comic shape
  check, image-URL normalisation, title extraction, title sanitisation and
  the file name;
- `save_comic`, which never raises and returns the comic number with its
  error or `None`;
- `save_comics`: the pool size, and the fold of the in-order result stream
  into `successful`, `failed` and `to_go`. A keyboard interrupt ends that
  fold after a prefix of the stream;
- the part of `main` that parses the range and decides between
  `DOWNLOADS COMPLETED` and `DOWNLOADS INTERRUPTED`.

Modules:

- `Results`: `Option` (Python's `None`) and `Result` (a value or a raised error).
- `Strings`: Python's `in`, `str.find`, `str.split(sep)`, `sep.join` and
  `str.replace`, all for a non-empty separator, and subsequences.
- `Decimal`: `str(n)`, `"{:0w}".format(n)` and `int(s)` on digit strings,
  and the run of digits at the front of a string.
- `Fetcher`: `_save_comic` and `save_comic`.
- `Scheduler`: `save_comics`.
- `Cli`: `main`.

The network is a parameter, `Fetcher.Network`. It has two parts:

- a function from a page URL to the parsed `Page`, or to the reason the request raised;
- a function from the planned download (image URL and file name) to the
  reason the download or the write failed, if it did.

The HTML parser is replaced by the `Page` it would produce. That page holds
the comic container's child count and image `src`, and the title text. Each
of these may be missing. A user interrupt is `interrupt: Option<nat>`: the
number of results that arrived before Ctrl-C.

Some behaviour of the code that a reader may not expect, all of it modelled:

- A reversed range such as `5-3` parses (xkcd.py:98-99), but `to_go` is then
  negative (xkcd.py:69) and the pool is asked for a negative size
  (xkcd.py:71). The pool refuses it with a `ValueError` outside the `try` of
  xkcd.py:73, so the program ends without a report
  (`Cli.ReversedRangeRejected`). An empty range such as `5-4` or `0` asks
  for a pool of size 0 and has no comics to fetch. Whenever the loop over
  the results ends, the run is reported completed with nothing counted
  (`Cli.EmptyRangeCompleted`).
- The page request at xkcd.py:35 never looks at the HTTP status code. An
  error page is parsed like any other page and usually fails the shape or
  container check.
- xkcd.py:46 removes every `//` in the image source, not only a leading one.
  No `//` is left after the added scheme (`Fetcher.ReplaceRemovesAll`). So an
  absolute `https://host/path` becomes `https://https:host/path`
  (`Fetcher.NormaliseSingleDoubleSlash`).
- The title at xkcd.py:47 is the piece between the first `xkcd: ` and the
  next one, if there is a next one. It is not simply everything after the
  prefix.
- A page without the regular shape raises at xkcd.py:43, and `save_comic`
  turns that into a `failed` count like any other error.

## Model

| member | source | states |
|---|---|---|
| `Fetcher.PageUrl` | xkcd.py:35 | The page address `https://xkcd.com/{num}/`. Its contract states only that it starts with `https://xkcd.com/`; `Fetcher.PageUrlInjective` describes it further |
| `Fetcher.PageUrlInjective` | xkcd.py:35 | Two comic numbers whose page URLs from `BASE_URL.format(num)` are equal are the same number, so each comic's page is requested from its own URL |
| `Fetcher.Prepare` | xkcd.py:42-52 | A container whose child count is not 3 gives `NotRegularComic`, whatever the rest of the page holds. The steps succeed exactly when the container, the 3 children, the image `src`, the title and the `xkcd: ` prefix are all present. On success the image URL is the normalised `src`, so it starts with `https://`, and the file name is the template filled with the comic number padded to four digits and the sanitised extracted title, so it parses back to that number and title |
| `Strings.Replace` | xkcd.py:46 | `str.replace` for a non-empty target, as the join of the split with the replacement. It has no contract of its own; `Strings.JoinSplit`, `Strings.JoinAtFirst`, `Fetcher.ReplaceRemovesAll`, `Fetcher.NormaliseImageUrl`, `Fetcher.NormaliseProtocolRelative` and `Fetcher.NormaliseSingleDoubleSlash` describe it |
| `Fetcher.NormaliseImageUrl` | xkcd.py:46 | The image URL always starts with `https://`, and no `//` is left anywhere after that scheme. A source with no `//` in it is kept unchanged after the scheme |
| `Fetcher.ReplaceRemovesAll` | xkcd.py:46 | Replacing `//` by the empty string leaves no `//` in the result, not even one formed where two pieces meet |
| `Strings.JoinAtFirst` | xkcd.py:46 | Joining the pieces of a split puts the joiner in place of the first separator and joins what follows that separator the same way |
| `Fetcher.NormaliseProtocolRelative` | xkcd.py:46 | A protocol-relative `//` + `w`, where `w` has no `//`, becomes exactly `https://` + `w` |
| `Fetcher.NormaliseSingleDoubleSlash` | xkcd.py:46 | A `//` after a slash-free head is dropped, so an absolute `https://host/path` turns into `https://https:host/path` |
| `Fetcher.ExtractTitle` | xkcd.py:47 | Fails with `TitlePrefixMissing` exactly when the title has no `xkcd: `. Otherwise the result is the text that starts right after the first `xkcd: ` and ends at the next `xkcd: ` or at the end of the title, so it holds no `xkcd: ` itself |
| `Fetcher.ExtractTitleIsSecondPiece` | xkcd.py:47 | The extracted name is exactly `text.split("xkcd: ")[1]`, and it exists exactly when the split has a second piece, so a missing prefix is the `IndexError` of the indexing |
| `Fetcher.ExtractTitleAfterPrefix` | xkcd.py:47 | For a title `xkcd: ` + `t`, where `t` has no `xkcd: `, the extracted title is `t` |
| `Fetcher.Sanitise` | xkcd.py:49 | The result contains only `[A-Za-z 0-9-]` and is a subsequence of the input. It keeps every occurrence of each allowed character and none of the others |
| `Fetcher.SanitiseKeepsSafe` | xkcd.py:49 | A title made only of allowed characters comes back unchanged |
| `Fetcher.SanitiseIdempotent` | xkcd.py:49 | Sanitising twice gives the same result as sanitising once |
| `Fetcher.FormatFilename` | xkcd.py:52 | The file name `comics/{:04} - XKCD - {}.png`. It has no contract of its own; `Decimal.ZeroPad`, `Fetcher.FilenameRoundTrip` and `Fetcher.FilenamesDistinct` describe it |
| `Fetcher.FilenameRoundTrip` | xkcd.py:52 | The name built from `comics/{:04} - XKCD - {}.png` is read back as the exact comic number and title it was built from |
| `Fetcher.FilenamesDistinct` | xkcd.py:52 | Two comics with different numbers are written to different files |
| `Fetcher.SaveComic` | xkcd.py:59-66 | Always returns its own comic number. The error is `None` exactly when the page arrived, the pure steps succeeded and the download succeeded. If a pure step fails, its error is returned and the download is never consulted |
| `Decimal.ParseShow` | xkcd.py:101 | `int(str(n)) == n` for every natural `n` |
| `Decimal.ZeroPad` | xkcd.py:14 | `{:04}` gives a numeral of length `max(4, len(str(n)))` whose value is `n` |
| `Strings.Split` | xkcd.py:99 | `split` gives at least one piece, and exactly one when the separator does not occur. The first piece is a prefix of the input, and no piece contains the separator |
| `Strings.JoinSplit` | xkcd.py:99 | Joining the pieces of a split with the same separator gives back the original text |
| `Scheduler.PoolSize` | xkcd.py:71 | The pool size is the number to go when that is at most 255, and 255 when it is at least 255. It never exceeds either, and it is positive when there is work |
| `Scheduler.OpenPool` | xkcd.py:71 | Opening the pool succeeds exactly when the number to go is not negative, with the capped size, and otherwise fails with a `ValueError` carrying the negative size |
| `Scheduler.Record` | xkcd.py:75-83 | One result adds one to `successful` if its error is `None` and one to `failed` otherwise, never both, and takes one off `to_go`. The sum of the three counters is unchanged |
| `Scheduler.CountPartition` | xkcd.py:75-82 | Every result counts as exactly one of a success or a failure |
| `Scheduler.Fold` | xkcd.py:74-83 | The loop body applied to each result in turn. It has no contract of its own; `Scheduler.Record`, `Scheduler.FoldCounts` and `Scheduler.FoldOrderIndependent` describe it |
| `Scheduler.FoldCounts` | xkcd.py:74-83 | Folding a result stream adds its successes to `successful` and its failures to `failed`, and subtracts the stream's length from `to_go` |
| `Scheduler.FoldOrderIndependent` | xkcd.py:74-83 | Any reordering of the results gives the same final counters |
| `Scheduler.Outcomes` | xkcd.py:70-74 | The results `p.imap(save_comic, range(start, end + 1))` hands back, taken in comic order. Its contract states only that there is one result per comic; each result is `SaveComic` of its comic number |
| `Scheduler.Consumed` | xkcd.py:84-88 | The loop consumes all results unless an interrupt arrives before the last one. In that case it consumes exactly the results that came before the interrupt |
| `Scheduler.Tally` | xkcd.py:68-89 | `successful` and `failed` count the successes and failures among the consumed prefix of the in-order results. `to_go` is the workload minus that prefix's length, so `successful + failed + to_go == end + 1 - start` |
| `Scheduler.SaveComics` | xkcd.py:68-89 | Asks for a pool of `min(to_go, 255)` and fails with the pool's `ValueError` exactly when the range is reversed. Otherwise the loop returns the tally above, `to_go` is never negative, and it is 0 exactly when no interrupt came before the last result |
| `Cli.ParseRange` | xkcd.py:98-101 | Reading the range. It has no contract of its own; `Cli.ParseSingle`, `Cli.ParsePair`, `Cli.ParseShown`, `Cli.ParseAccepted` and `Cli.ParseRejectsTwoDashes` describe it in both directions |
| `Cli.ParseSingle` | xkcd.py:100-101 | Text without a dash is read as `(1, N)` when it is a numeral and rejected otherwise |
| `Cli.ParsePair` | xkcd.py:98-99 | Two numerals around one dash read as `(A, B)` |
| `Cli.ParseShown` | xkcd.py:98-101 | The spellings `str(N)` and `str(A)-str(B)` read back as `(1, N)` and `(A, B)` |
| `Cli.ParseAccepted` | xkcd.py:98-101 | Every accepted text is either a numeral `N`, read as `(1, N)`, or numeral-dash-numeral, read as the two values |
| `Cli.ParseRejectsTwoDashes` | xkcd.py:99 | Text with two or more dashes is rejected |
| `Cli.Run` | xkcd.py:95-112 | Ends with an error exactly when the `comics` directory cannot be made, the range does not parse, or the range is reversed, in that order of precedence. Otherwise the report shows the `successful`, `failed` and `to_go` that `save_comics` returns, they add up to `end + 1 - start`, `skipped` is not negative, and the run is reported completed exactly when `skipped == 0`, that is, when no interrupt came before the last result |
| `Cli.AllSucceed` | xkcd.py:100-112 | For input `N` where every comic of `1..N` downloads, the report is `N` successful, 0 failed, 0 skipped, completed |
| `Cli.ReversedRangeRejected` | xkcd.py:69-73 | For input `A-B` with `B + 1 < A`, the range parses as `(A, B)`, and the run ends with the pool's `ValueError` for the negative size `B + 1 - A` instead of a report |
| `Cli.EmptyRangeCompleted` | xkcd.py:69-74 | For input `(B+1)-B`, the range holds no comics, and whenever the loop ends, whatever interrupt arrives, the report is 0 successful, 0 failed, 0 skipped, completed |
| `Cli.EmptyRangeReport` | xkcd.py:69-74 | Any input that parses to a range whose end is one below its start is reported as 0 successful, 0 failed, 0 skipped, completed |
| `Cli.IrregularComicCountsAsFailed` | xkcd.py:42-89 | For input `1050-1052` where comic 1051's container does not have 3 children and the others download, the report is 2 successful, 1 failed, 0 skipped, completed |

## Left out

- HTTP requests (xkcd.py:35, 51, 54, 56) are network I/O. Each response, or its failure, is the value `Network` returns.
- HTML parsing with BeautifulSoup and lxml (xkcd.py:36-37, 45, and the `soup.find` on 47) is a foreign library. `Page` stands in for its result.
- The eventlet green pool and monkey-patching (xkcd.py:3-4, 71, 74) are cooperative concurrency. Only the pool-size arithmetic is modelled, and `imap` is taken as the results in comic order. The bound on how many downloads are in flight at once is a property of the pool and is not modelled.
- `KeyboardInterrupt` is an asynchronous signal. It is modelled only as the fold stopping after a prefix. An interrupt that lands between a counter increment and `to_go -= 1` would leave the counters off by one, and the model does not cover it.
- Creating and writing the image file (xkcd.py:53-55) is filesystem I/O. Its failure is part of what the download function of `Network` reports, and `save_comic` counts it as failed.
- Checking for and creating the `comics` directory (xkcd.py:95-96) is filesystem I/O. It is the `directory` parameter of `Cli.Run`: the reason it raised, if it did. A failure ends the program before the range is parsed.
- `os.getcwd` (xkcd.py:121) runs after the report is printed. Its failure is not modelled.
- Console output with `colorama`, `cprint` and `print` (xkcd.py:25-31, 60, 76-81, 107-121) is presentation. Only the completed/interrupted decision behind the headline is modelled.
- The `input_` shim and the prompt (xkcd.py:21, 92) are console I/O. The text the user typed is a parameter.
- Python `int()` also accepts whitespace, signs, underscores and non-ASCII digits. `Decimal.ParseNat` accepts only non-empty strings of ASCII digits.
- The different `ValueError`s of `main` are collapsed into one `Cli.InputError`. These are a non-numeric part, more than one dash, and an empty side of the dash. All of them end the program alike.
- eventlet is not part of this model. The model takes one fact about it: `GreenPool` refuses a negative size with a `ValueError`. Whether `imap` over a pool of size 0 ends by itself, or waits until the user interrupts it, is not modelled; the model only states the report printed once the loop has ended.

=== FILE: cli.dfy ===
/**
 The entry point, `main` in xkcd.py: read the requested range, run the
 downloads, and decide whether the run completed or was interrupted.
 Reading the prompt and printing are not modelled; whether the directory
 could be made is a parameter.
 */
module Cli {
  import opened Results
  import opened Strings
  import Decimal
  import opened Fetcher
  import opened Scheduler

  const RangeSeparator: string := "-"

  /** The `ValueError` that `int` or the two-name unpacking raises on malformed input. */
  datatype InputError = ValueError(text: string)

  /**
   Text with a dash must split at the dash into exactly two numerals `A` and
   `B`, giving `(A, B)`; text without a dash must be one numeral `N`, giving `(1, N)`.
   */
  function ParseRange(text: string): (r: Result<(nat, nat), InputError>) {
    if '-' in text then
      var parts := Split(text, RangeSeparator);
      if |parts| != 2 then Err(ValueError(text))
      else match (Decimal.ParseNat(parts[0]), Decimal.ParseNat(parts[1]))
        case (Some(a), Some(b)) => Ok((a, b))
        case _ => Err(ValueError(text))
    else match Decimal.ParseNat(text)
      case Some(n) => Ok((1, n))
      case None => Err(ValueError(text))
  }

  /** The dash occurs in a string exactly where the string holds a `-`. */
  lemma DashOccurrences(s: string)
    ensures forall i :: OccursAt(s, RangeSeparator, i) <==> 0 <= i < |s| && s[i] == '-'
    ensures Contains(s, RangeSeparator) <==> '-' in s
  {
    forall i
      ensures OccursAt(s, RangeSeparator, i) <==> 0 <= i < |s| && s[i] == '-'
    {
      if 0 <= i < |s| {
        assert s[i..i + 1] == [s[i]];
      }
    }
    if '-' in s {
      var i :| 0 <= i < |s| && s[i] == '-';
      assert OccursAt(s, RangeSeparator, i);
    }
  }

  /** A numeral holds no dash. */
  lemma NumeralHasNoDash(s: string)
    requires Decimal.AllDigits(s)
    ensures '-' !in s
    ensures !Contains(s, RangeSeparator)
  {
    DashOccurrences(s);
  }

  /** A position holding a digit is not an occurrence of the dash. */
  lemma NoDashAtDigit(s: string, j: nat)
    requires j < |s| && Decimal.IsDigit(s[j])
    ensures !OccursAt(s, RangeSeparator, j)
  {
    assert s[j..j + 1][0] == s[j];
  }

  /** Two numerals around one dash split into exactly those two numerals. */
  lemma SplitPair(p: string, q: string)
    requires Decimal.AllDigits(p) && Decimal.AllDigits(q)
    ensures Split(p + RangeSeparator + q, RangeSeparator) == [p, q]
  {
    var text := p + RangeSeparator + q;
    forall j | 0 <= j < |p|
      ensures !OccursAt(text, RangeSeparator, j)
    {
      assert text[j] == p[j];
      NoDashAtDigit(text, j);
    }
    assert text[|p|..|p| + 1] == RangeSeparator;
    FirstOccurrence(text, RangeSeparator, |p|);
    assert text[..|p|] == p;
    assert text[|p| + 1..] == q;
    NumeralHasNoDash(q);
    SplitWithoutSeparator(q, RangeSeparator);
  }

  /** Text without a dash is read as `1-N`; only a numeral is accepted. */
  lemma ParseSingle(text: string)
    requires '-' !in text
    ensures Decimal.IsNumeral(text) ==> ParseRange(text) == Ok((1, Decimal.Value(text)))
    ensures !Decimal.IsNumeral(text) ==> ParseRange(text).Err?
  {
  }

  /** `A-B` with two numerals reads as the range from `A` to `B`. */
  lemma ParsePair(p: string, q: string)
    requires Decimal.IsNumeral(p) && Decimal.IsNumeral(q)
    ensures ParseRange(p + RangeSeparator + q) == Ok((Decimal.Value(p), Decimal.Value(q)))
  {
    var text := p + RangeSeparator + q;
    assert text[|p|] == '-';
    SplitPair(p, q);
  }

  /** The canonical spellings `N` and `A-B` read back as the numbers they were written from. */
  lemma ParseShown(a: nat, b: nat)
    ensures ParseRange(Decimal.Show(b)) == Ok((1, b))
    ensures ParseRange(Decimal.Show(a) + RangeSeparator + Decimal.Show(b)) == Ok((a, b))
  {
    NumeralHasNoDash(Decimal.Show(b));
    Decimal.ValueOfShow(a);
    Decimal.ValueOfShow(b);
    ParsePair(Decimal.Show(a), Decimal.Show(b));
  }

  /**
   Everything `ParseRange` accepts is either a numeral `N`, read as `(1, N)`,
   or two numerals around a single dash, read as `(A, B)`.
   */
  lemma ParseAccepted(text: string)
    requires ParseRange(text).Ok?
    ensures
      || (Decimal.IsNumeral(text) && ParseRange(text).value == (1, Decimal.Value(text)))
      || exists i :: 0 <= i < |text| && text[i] == '-'
           && Decimal.IsNumeral(text[..i]) && Decimal.IsNumeral(text[i + 1..])
           && ParseRange(text).value == (Decimal.Value(text[..i]), Decimal.Value(text[i + 1..]))
  {
    if '-' in text {
      DashOccurrences(text);
      var i := IndexOf(text, RangeSeparator).value;
      var rest := text[i + 1..];
      assert Split(text, RangeSeparator) == [text[..i]] + Split(rest, RangeSeparator);
      assert Split(rest, RangeSeparator)[0] == rest by {
        NumeralHasNoDash(Split(text, RangeSeparator)[1]);
        assert |Split(rest, RangeSeparator)| == 1;
        SplitWithoutSeparator(rest, RangeSeparator);
      }
    }
  }

  /** Text with two dashes or more is rejected. */
  lemma ParseRejectsTwoDashes(text: string, i: nat, j: nat)
    requires i < j < |text| && text[i] == '-' && text[j] == '-'
    ensures ParseRange(text).Err?
  {
    DashOccurrences(text);
    assert OccursAt(text, RangeSeparator, i);
    var first := IndexOf(text, RangeSeparator).value;
    assert first <= i;
    var rest := text[first + 1..];
    assert rest[j - first - 1] == '-';
    DashOccurrences(rest);
    assert |Split(rest, RangeSeparator)| >= 2;
    assert Split(text, RangeSeparator) == [text[..first]] + Split(rest, RangeSeparator);
  }

  /** Whether `main` prints `DOWNLOADS COMPLETED` or `DOWNLOADS INTERRUPTED` above its counters. */
  datatype Status = Completed | Interrupted

  /** What `main` reports: the three counters and the headline it chose. */
  datatype Report = Report(successful: nat, failed: nat, skipped: int, status: Status)

  /** How `main` ends without a report: each is an exception it lets escape. */
  datatype RunError =
    | DirectoryFailed(reason: string)   // creating the `comics` directory raised
    | BadRange(input: InputError)       // the typed range is malformed
    | BadPoolSize(pool: PoolError)      // the range is reversed, so the pool size is negative

  /**
   `main` after the prompt. `directory` is the reason creating the `comics`
   directory raised, if it did; `None` when it exists or was created. Then
   parse the range, open the pool and run `save_comics`, and call the run
   completed exactly when nothing is left to go.
   */
  function Run(text: string, directory: Option<string>, net: Network, interrupt: Option<nat>)
    : (r: Result<Report, RunError>)
    ensures r.Err? <==>
      || directory.Some?
      || ParseRange(text).Err?
      || ParseRange(text).value.1 + 1 < ParseRange(text).value.0
    ensures directory.Some? ==> r == Err(DirectoryFailed(directory.value))
    ensures directory.None? && ParseRange(text).Err? ==> r == Err(BadRange(ParseRange(text).error))
    ensures r.Ok? ==>
      var (start, end) := ParseRange(text).value;
      var s := Tally(start, end, net, interrupt);
      && r.value.successful == s.successful
      && r.value.failed == s.failed
      && r.value.skipped == s.toGo
    ensures r.Ok? ==>
      var (start, end) := ParseRange(text).value;
      var n := Workload(start, end);
      && r.value.successful + r.value.failed + r.value.skipped == end + 1 - start
      && r.value.skipped == end + 1 - start - Consumed(n, interrupt)
      && 0 <= r.value.skipped
      && (r.value.status == Completed <==> r.value.skipped == 0)
      && (r.value.status == Completed <==> interrupt.None? || end + 1 - start <= interrupt.value)
  {
    if directory.Some? then Err(DirectoryFailed(directory.value))
    else match ParseRange(text)
      case Err(e) => Err(BadRange(e))
      case Ok((start, end)) =>
        match OpenPool(end + 1 - start)
        case Err(e) => Err(BadPoolSize(e))
        case Ok(_) =>
          var s := Tally(start, end, net, interrupt);
          Ok(Report(s.successful, s.failed, s.toGo, if s.toGo == 0 then Completed else Interrupted))
  }

  /** A well-formed range that is not reversed is reported with the counters of its tally. */
  lemma RunReports(text: string, net: Network, interrupt: Option<nat>, start: nat, end: nat)
    requires ParseRange(text) == Ok((start, end)) && start <= end + 1
    ensures
      var s := Tally(start, end, net, interrupt);
      Run(text, None, net, interrupt)
        == Ok(Report(s.successful, s.failed, s.toGo, if s.toGo == 0 then Completed else Interrupted))
  {
  }

  /** When every comic of `1..N` downloads, the run reports all `N` as successful and completes. */
  lemma AllSucceed(n: nat, net: Network)
    requires forall num :: 1 <= num <= n ==> SaveComic(num, net).error.None?
    ensures Run(Decimal.Show(n), None, net, None) == Ok(Report(n, 0, 0, Completed))
  {
    assert ParseRange(Decimal.Show(n)) == Ok((1, n)) by {
      ParseShown(0, n);
    }
    assert Tally(1, n, net, None) == Summary(n, 0, 0) by {
      var done := Outcomes(1, n, net);
      assert Workload(1, n) == n && Consumed(n, None) == n;
      assert done[..n] == done;
      forall i | 0 <= i < n
        ensures done[i].error.None?
      {
        OutcomesInOrder(1, n, net, i);
      }
      CountNone(done, true);
      CountPartition(done);
    }
    RunReports(Decimal.Show(n), net, None, 1, n);
  }

  /**
   A reversed range such as `5-3` passes parsing, but the pool is asked for
   a negative size and refuses it, so the program ends before any comic is
   requested and no report is printed.
   */
  lemma ReversedRangeRejected(a: nat, b: nat, net: Network, interrupt: Option<nat>)
    requires b + 1 < a
    ensures ParseRange(Decimal.Show(a) + RangeSeparator + Decimal.Show(b)) == Ok((a, b))
    ensures Run(Decimal.Show(a) + RangeSeparator + Decimal.Show(b), None, net, interrupt)
         == Err(BadPoolSize(NegativePoolSize(b + 1 - a)))
  {
    var text := Decimal.Show(a) + RangeSeparator + Decimal.Show(b);
    ParseShown(a, b);
    assert ParseRange(text) == Ok((a, b));
    assert OpenPool(b + 1 - a) == Err(NegativePoolSize(b + 1 - a));
  }

  /**
   An empty range `(B+1)-B` opens a pool of size 0 and has no comics to
   fetch: whenever the loop over the results ends, the run is reported
   completed with nothing counted, whatever interrupt arrives.
   */
  lemma EmptyRangeCompleted(b: nat, net: Network, interrupt: Option<nat>)
    ensures Run(Decimal.Show(b + 1) + RangeSeparator + Decimal.Show(b), None, net, interrupt)
         == Ok(Report(0, 0, 0, Completed))
  {
    var text := Decimal.Show(b + 1) + RangeSeparator + Decimal.Show(b);
    ParseShown(b + 1, b);
    EmptyRangeReport(text, b + 1, net, interrupt);
  }

  /** Any input that reads as an empty range is reported completed with nothing counted. */
  lemma EmptyRangeReport(text: string, start: nat, net: Network, interrupt: Option<nat>)
    requires 1 <= start && ParseRange(text) == Ok((start, start - 1))
    ensures Run(text, None, net, interrupt) == Ok(Report(0, 0, 0, Completed))
  {
    var s := Tally(start, start - 1, net, interrupt);
    assert s == Summary(0, 0, 0) by {
      EmptyTally(start, net, interrupt);
    }
    RunReports(text, net, interrupt, start, start - 1);
  }

  /** An empty range leaves every counter at 0. */
  lemma EmptyTally(start: nat, net: Network, interrupt: Option<nat>)
    requires 1 <= start
    ensures Tally(start, start - 1, net, interrupt) == Summary(0, 0, 0)
  {
    assert Workload(start, start - 1) == 0 && Consumed(0, interrupt) == 0;
    assert Outcomes(start, 0, net)[..0] == [];
  }

  /** The input of the scenario below reads as the range from 1050 to 1052. */
  lemma ScenarioInput()
    ensures ParseRange("1050-1052") == Ok((1050, 1052))
  {
    assert Decimal.Show(1) == "1";
    assert Decimal.Show(10) == "10";
    assert Decimal.Show(105) == "105";
    assert "1050-1052" == Decimal.Show(1050) + RangeSeparator + Decimal.Show(1052);
    ParseShown(1050, 1052);
  }

  /** Three results of which only the middle one failed. */
  lemma CountOneFailure(rs: seq<SaveResult>)
    requires |rs| == 3 && rs[0].error.None? && rs[1].error.Some? && rs[2].error.None?
    ensures Count(rs, false) == 2 && Count(rs, true) == 1
  {
    var second := rs[1..];
    var third := second[1..];
    var none := third[1..];
    assert |none| == 0;
    assert third[0] == rs[2] && second[0] == rs[1];
    assert Count(third, false) == 1 + Count(none, false);
    assert Count(third, true) == Count(none, true);
    assert Count(second, false) == Count(third, false);
    assert Count(second, true) == 1 + Count(third, true);
    assert Count(rs, false) == 1 + Count(second, false);
    assert Count(rs, true) == Count(second, true);
  }

  /** Without an interrupt the tally counts every result of the range and leaves nothing to go. */
  lemma TallyWithoutInterrupt(start: nat, end: nat, net: Network)
    requires start <= end + 1
    ensures
      var done := Outcomes(start, end + 1 - start, net);
      Tally(start, end, net, None) == Summary(Count(done, false), Count(done, true), 0)
  {
    var n := end + 1 - start;
    var done := Outcomes(start, n, net);
    assert Workload(start, end) == n && Consumed(n, None) == n;
    assert done[..n] == done;
  }

  /** Three comics of which only the middle one fails. */
  lemma ScenarioTally(net: Network)
    requires SaveComic(1050, net).error.None? && SaveComic(1052, net).error.None?
    requires SaveComic(1051, net).error.Some?
    ensures Tally(1050, 1052, net, None) == Summary(2, 1, 0)
  {
    var done := Outcomes(1050, 3, net);
    assert Count(done, false) == 2 && Count(done, true) == 1 by {
      OutcomesInOrder(1050, 3, net, 0);
      OutcomesInOrder(1050, 3, net, 1);
      OutcomesInOrder(1050, 3, net, 2);
      CountOneFailure(done);
    }
    TallyWithoutInterrupt(1050, 1052, net);
  }

  /** The run over `1050-1052` in which comic 1051 has an irregular page: two saved, one failed, none skipped. */
  lemma IrregularComicCountsAsFailed(net: Network)
    requires SaveComic(1050, net).error.None? && SaveComic(1052, net).error.None?
    requires net.page(PageUrl(1051)).Ok?
    requires net.page(PageUrl(1051)).value.comic.Some?
    requires net.page(PageUrl(1051)).value.comic.value.childCount != RegularChildCount
    ensures Run("1050-1052", None, net, None) == Ok(Report(2, 1, 0, Completed))
  {
    ScenarioInput();
    assert SaveComic(1051, net).error == Some(NotRegularComic);
    ScenarioTally(net);
  }
}

=== FILE: decimal.dfy ===
/**
 Decimal numerals: Python's `str(n)` and `"{:0w}".format(n)` for a natural
 number, and `int(s)` restricted to strings of ASCII digits.
 */
module Decimal {
  import opened Results

  predicate IsDigit(c: char) {
    '0' <= c <= '9'
  }

  predicate AllDigits(s: string) {
    forall i :: 0 <= i < |s| ==> IsDigit(s[i])
  }

  /** A non-empty run of ASCII digits: the only text `int` accepts in this model. */
  predicate IsNumeral(s: string) {
    |s| > 0 && AllDigits(s)
  }

  function DigitValue(c: char): nat
    requires IsDigit(c)
  {
    c as int - '0' as int
  }

  function DigitChar(d: nat): (c: char)
    requires d < 10
    ensures IsDigit(c) && DigitValue(c) == d
  {
    ('0' as int + d) as char
  }

  /** The number a digit string denotes, most significant digit first. */
  function Value(s: string): nat
    requires AllDigits(s)
    decreases |s|
  {
    if |s| == 0 then 0 else 10 * Value(s[..|s| - 1]) + DigitValue(s[|s| - 1])
  }

  /** Python's `str(n)`: the shortest numeral for `n`. */
  function Show(n: nat): (r: string)
    ensures IsNumeral(r)
    ensures |r| > 1 ==> r[0] != '0'
    decreases n
  {
    if n < 10 then [DigitChar(n)] else Show(n / 10) + [DigitChar(n % 10)]
  }

  /** Reading back the numeral `str(n)` gives `n`. */
  lemma {:induction false} ValueOfShow(n: nat)
    ensures Value(Show(n)) == n
    decreases n
  {
    if n >= 10 {
      var r := Show(n);
      ValueOfShow(n / 10);
      assert r[..|r| - 1] == Show(n / 10);
    }
  }

  /** Python's `int(s)` on the texts this model admits: `None` where Python raises `ValueError`. */
  function ParseNat(s: string): Option<nat> {
    if IsNumeral(s) then Some(Value(s)) else None
  }

  /** `int(str(n)) == n`. */
  lemma ParseShow(n: nat)
    ensures ParseNat(Show(n)) == Some(n)
  {
    ValueOfShow(n);
  }

  /** `k` zero digits. */
  function Zeros(k: nat): (r: string)
    ensures |r| == k && AllDigits(r)
    decreases k
  {
    if k == 0 then "" else "0" + Zeros(k - 1)
  }

  /** Leading zeros do not change the value of a numeral. */
  lemma {:induction false} LeadingZero(s: string)
    requires AllDigits(s)
    ensures Value("0" + s) == Value(s)
    decreases |s|
  {
    if |s| > 0 {
      var t := "0" + s;
      assert t[..|t| - 1] == "0" + s[..|s| - 1];
      LeadingZero(s[..|s| - 1]);
    }
  }

  lemma {:induction false} LeadingZeros(k: nat, s: string)
    requires AllDigits(s)
    ensures Value(Zeros(k) + s) == Value(s)
    decreases k
  {
    if k > 0 {
      assert Zeros(k) + s == "0" + (Zeros(k - 1) + s);
      LeadingZeros(k - 1, s);
      LeadingZero(Zeros(k - 1) + s);
    } else {
      assert Zeros(k) + s == s;
    }
  }

  /** Python's `"{:0w}".format(n)` for a natural `n`: `str(n)` left-padded with zeros to width `w`. */
  function ZeroPad(n: nat, width: nat): (r: string)
    ensures IsNumeral(r)
    ensures |r| == if |Show(n)| < width then width else |Show(n)|
    ensures Value(r) == n
  {
    var digits := Show(n);
    ValueOfShow(n);
    if |digits| < width then
      LeadingZeros(width - |digits|, digits);
      Zeros(width - |digits|) + digits
    else digits
  }

  /** Number of ASCII digits at the front of `s`. */
  function DigitRun(s: string): (k: nat)
    ensures k <= |s|
    ensures AllDigits(s[..k])
    ensures k < |s| ==> !IsDigit(s[k])
    decreases |s|
  {
    if |s| == 0 || !IsDigit(s[0]) then 0
    else
      var k := DigitRun(s[1..]);
      assert s[..k + 1] == [s[0]] + s[1..][..k];
      k + 1
  }

  /** A numeral stops where the first non-digit begins. */
  lemma {:induction false} DigitRunOfNumeral(digits: string, rest: string)
    requires AllDigits(digits)
    requires |rest| > 0 && !IsDigit(rest[0])
    ensures DigitRun(digits + rest) == |digits|
    decreases |digits|
  {
    if |digits| > 0 {
      assert (digits + rest)[1..] == digits[1..] + rest;
      DigitRunOfNumeral(digits[1..], rest);
    }
  }
}

=== FILE: fetcher.dfy ===
/**
 Fetching one comic: the pure steps of `_save_comic` and the result wrapping
 of `save_comic` in xkcd.py.

 The network is a parameter (`Network`): a function from a page URL to the
 parsed page, or to the reason the request failed, and a function from the
 planned download (image URL and file name) to the reason it failed, if it
 did. The HTML parser is replaced by the `Page` it would have produced.
 */
module Fetcher {
  import opened Results
  import opened Strings
  import Decimal

  /** Page URL template, `https://xkcd.com/{}/`, split around its hole. */
  const PageUrlHead: string := "https://xkcd.com/"
  const PageUrlTail: string := "/"
  /** Children of a regular comic container: the image and the whitespace on either side. */
  const RegularChildCount: nat := 3
  /** What precedes the comic's name in every page title. */
  const TitlePrefix: string := "xkcd: "
  const Scheme: string := "https://"
  const DoubleSlash: string := "//"
  /** File name template, `comics/{:04} - XKCD - {}.png`, in pieces. */
  const Directory: string := "comics/"
  const Separator: string := " - XKCD - "
  const Extension: string := ".png"
  const IdWidth: nat := 4

  /** The `<div id="comic">` element: how many children it has and the `src` of its `<img>`, if any. */
  datatype Container = Container(childCount: nat, imageSrc: Option<string>)

  /** A parsed comic page: its comic container and the text of its `<title>`, each possibly missing. */
  datatype Page = Page(comic: Option<Container>, title: Option<string>)

  /** Why one comic could not be saved; each is an exception `_save_comic` lets escape. */
  datatype ComicError =
    | PageRequestFailed(reason: string)  // the page request raised
    | NoComicContainer                   // the page has no comic container
    | NotRegularComic                    // the container does not have exactly three children
    | NoImageSource                      // the container has no image, or the image no `src`
    | NoTitle                            // `None.text`: the page has no title
    | TitlePrefixMissing                 // the title has no site prefix, so there is no second piece
    | DownloadFailed(reason: string)     // the image request or the file write raised

  /** What `_save_comic` downloads, and where it writes it. */
  datatype Plan = Plan(imageUrl: string, filename: string)

  /** The outside world one run talks to. */
  datatype Network = Network(
    page: string -> Result<Page, string>,
    download: Plan -> Option<string>)

  /** What `save_comic` returns: the comic number and the error, or `None` on success. */
  datatype SaveResult = SaveResult(num: nat, error: Option<ComicError>)

  /** The address of a comic's page: the site, the comic number, a closing slash. */
  function PageUrl(num: nat): (url: string)
    ensures StartsWith(url, PageUrlHead)
  {
    PageUrlHead + Decimal.Show(num) + PageUrlTail
  }

  /** Different comics are requested from different pages. */
  lemma PageUrlInjective(m: nat, n: nat)
    requires PageUrl(m) == PageUrl(n)
    ensures m == n
  {
    var a, b := Decimal.Show(m), Decimal.Show(n);
    assert PageUrl(m)[|PageUrlHead|..|PageUrl(m)| - 1] == a;
    assert PageUrl(n)[|PageUrlHead|..|PageUrl(n)| - 1] == b;
    Decimal.ValueOfShow(m);
    Decimal.ValueOfShow(n);
  }

  /** The image address: every `//` is removed from the `src` and the HTTPS scheme is put in front. */
  function NormaliseImageUrl(src: string): (url: string)
    ensures StartsWith(url, Scheme)
    ensures !Contains(url[|Scheme|..], DoubleSlash)
    ensures !Contains(src, DoubleSlash) ==> url == Scheme + src
  {
    ReplaceRemovesAll(src);
    var url := Scheme + Replace(src, DoubleSlash, "");
    assert url[|Scheme|..] == Replace(src, DoubleSlash, "");
    url
  }

  /** Two texts without `//`, the first not ending in `/`, have no `//` when put together. */
  lemma NoDoubleSlashAcross(a: string, b: string)
    requires !Contains(a, DoubleSlash) && !Contains(b, DoubleSlash)
    requires |a| == 0 || a[|a| - 1] != '/'
    ensures !Contains(a + b, DoubleSlash)
  {
    var ab := a + b;
    forall k | 0 <= k <= |ab|
      ensures !OccursAt(ab, DoubleSlash, k)
    {
      if k + 2 <= |a| {
        assert ab[k..k + 2] == a[k..k + 2];
        assert !OccursAt(a, DoubleSlash, k);
      } else if |a| <= k && k + 2 <= |ab| {
        assert ab[k..k + 2] == b[k - |a|..k - |a| + 2];
        assert !OccursAt(b, DoubleSlash, k - |a|);
      } else if k + 2 <= |ab| {
        assert ab[k] == a[|a| - 1];
      }
    }
  }

  /** Removing `//` with `replace` leaves no `//` anywhere: the pieces of the split are put together without a separator. */
  lemma {:induction false} ReplaceRemovesAll(s: string)
    ensures !Contains(Replace(s, DoubleSlash, ""), DoubleSlash)
    decreases |s|
  {
    match IndexOf(s, DoubleSlash)
    case None =>
      SplitWithoutSeparator(s, DoubleSlash);
    case Some(i) =>
      JoinAtFirst(s, DoubleSlash, "", i);
      var head, after := s[..i], Replace(s[i + 2..], DoubleSlash, "");
      assert Replace(s, DoubleSlash, "") == head + after by {
        assert head + "" == head;
      }
      ReplaceRemovesAll(s[i + 2..]);
      NoOccurrenceInPrefix(s, DoubleSlash, i);
      NoSlashBeforeFirst(s, i);
      NoDoubleSlashAcross(head, after);
  }

  /** The text before the first `//` does not end in `/`, or the `//` would start one place earlier. */
  lemma {:induction false} NoSlashBeforeFirst(s: string, i: nat)
    requires IndexOf(s, DoubleSlash) == Some(i)
    ensures i == 0 || s[..i][i - 1] != '/'
  {
    assert OccursAt(s, DoubleSlash, i);
    assert s[i] == '/' by {
      assert s[i..i + 2][0] == s[i];
    }
    if 0 < i {
      assert !OccursAt(s, DoubleSlash, i - 1);
      assert s[i - 1..i + 1] == [s[i - 1], s[i]];
      assert s[..i][i - 1] == s[i - 1];
    }
  }

  /** A protocol-relative source `//host/path` becomes `https://host/path`. */
  lemma NormaliseProtocolRelative(w: string)
    requires !Contains(w, DoubleSlash)
    ensures NormaliseImageUrl(DoubleSlash + w) == Scheme + w
  {
    SplitLeadingSeparator(w, DoubleSlash);
    SplitWithoutSeparator(w, DoubleSlash);
    assert Split(DoubleSlash + w, DoubleSlash) == ["", w];
    JoinCons("", [w], "");
    assert Contains(DoubleSlash + w, DoubleSlash) by {
      assert OccursAt(DoubleSlash + w, DoubleSlash, 0);
    }
  }

  /** Before the first `/`, a source has no `//` in it. */
  lemma NoDoubleSlashBefore(text: string, head: string)
    requires '/' !in head && StartsWith(text, head)
    ensures forall j :: 0 <= j < |head| ==> !OccursAt(text, DoubleSlash, j)
  {
    forall j | 0 <= j < |head|
      ensures !OccursAt(text, DoubleSlash, j)
    {
      assert text[j] == head[j];
      if j + 2 <= |text| {
        assert text[j..j + 2][0] == text[j];
      }
    }
  }

  /**
   A source with one `//` after a slash-free head loses that `//`: an absolute
   `https://host/path` becomes `https://https:host/path`.
   */
  lemma NormaliseSingleDoubleSlash(head: string, w: string)
    requires '/' !in head && !Contains(w, DoubleSlash)
    ensures NormaliseImageUrl(head + DoubleSlash + w) == Scheme + head + w
  {
    var src := head + DoubleSlash + w;
    NoDoubleSlashBefore(src, head);
    assert src[|head|..|head| + 2] == DoubleSlash;
    FirstOccurrence(src, DoubleSlash, |head|);
    assert src[..|head|] == head;
    assert src[|head| + 2..] == w;
    SplitWithoutSeparator(w, DoubleSlash);
    assert Split(src, DoubleSlash) == [head, w];
    JoinCons(head, [w], "");
  }

  /**
   The comic's name: the text of the title from the end of the first site
   prefix up to the next prefix, or to the end of the title when there is
   no next one. `ExtractTitleIsSecondPiece` shows that this is the second
   piece of the title split at the prefix.
   */
  function ExtractTitle(text: string): (r: Result<string, ComicError>)
    ensures r.Err? <==> !Contains(text, TitlePrefix)
    ensures r.Err? ==> r.error == TitlePrefixMissing
    ensures r.Ok? ==> !Contains(r.value, TitlePrefix)
    ensures r.Ok? ==> Contains(text, TitlePrefix + r.value)
    ensures r.Ok? ==>
      var j := IndexOf(text, TitlePrefix).value + |TitlePrefix|;
      && j <= |text|
      && StartsWith(text[j..], r.value)
      && (j + |r.value| < |text| ==> OccursAt(text, TitlePrefix, j + |r.value|))
  {
    match IndexOf(text, TitlePrefix)
    case None => Err(TitlePrefixMissing)
    case Some(i) =>
      var j := i + |TitlePrefix|;
      var rest := text[j..];
      var name := NameBeforeNextPrefix(rest);
      OccurrenceExtends(text, TitlePrefix, i, name);
      if |name| < |rest| then
        OccurrenceInSuffix(text, TitlePrefix, j, |name|);
        Ok(name)
      else Ok(name)
  }

  /** The text before the first site prefix, or all of it when there is none. */
  function NameBeforeNextPrefix(rest: string): (name: string)
    ensures StartsWith(rest, name)
    ensures !Contains(name, TitlePrefix)
    ensures |name| < |rest| ==> OccursAt(rest, TitlePrefix, |name|)
  {
    match IndexOf(rest, TitlePrefix)
    case None => rest
    case Some(k) =>
      NoOccurrenceInPrefix(rest, TitlePrefix, k);
      rest[..k]
  }

  /** The extracted name is `text.split("xkcd: ")[1]`, and it exists exactly when that second piece does. */
  lemma ExtractTitleIsSecondPiece(text: string)
    ensures ExtractTitle(text).Ok? <==> |Split(text, TitlePrefix)| >= 2
    ensures ExtractTitle(text).Ok? ==> ExtractTitle(text).value == Split(text, TitlePrefix)[1]
  {
    var found := IndexOf(text, TitlePrefix);
    if found.Some? {
      var i := found.value;
      var rest := text[i + |TitlePrefix|..];
      SecondPiece(text, TitlePrefix, i);
      FirstPiece(rest, TitlePrefix);
    }
  }

  /** The title of a regular page, `"xkcd: " + name`, yields the name. */
  lemma ExtractTitleAfterPrefix(name: string)
    requires !Contains(name, TitlePrefix)
    ensures ExtractTitle(TitlePrefix + name) == Ok(name)
  {
    var text := TitlePrefix + name;
    assert OccursAt(text, TitlePrefix, 0);
    assert text[|TitlePrefix|..] == name;
  }

  /** The characters `[A-Za-z 0-9\-]` a file name may keep. */
  predicate IsSafe(c: char) {
    ('A' <= c <= 'Z') || ('a' <= c <= 'z') || c == ' ' || ('0' <= c <= '9') || c == '-'
  }

  predicate AllSafe(s: string) {
    forall i :: 0 <= i < |s| ==> IsSafe(s[i])
  }

  /** The title with every character outside letters, digits, space and dash deleted. */
  function Sanitise(title: string): (r: string)
    ensures AllSafe(r)
    ensures IsSubsequence(r, title)
    ensures forall c :: IsSafe(c) ==> multiset(r)[c] == multiset(title)[c]
    ensures forall c :: !IsSafe(c) ==> multiset(r)[c] == 0
    decreases |title|
  {
    if |title| == 0 then ""
    else
      var rest := Sanitise(title[1..]);
      assert title == [title[0]] + title[1..];
      if IsSafe(title[0]) then [title[0]] + rest else rest
  }

  /** A title made only of safe characters is left as it is. */
  lemma {:induction false} SanitiseKeepsSafe(title: string)
    requires AllSafe(title)
    ensures Sanitise(title) == title
    decreases |title|
  {
    if |title| > 0 {
      SanitiseKeepsSafe(title[1..]);
    }
  }

  /** Sanitising twice is sanitising once. */
  lemma SanitiseIdempotent(title: string)
    ensures Sanitise(Sanitise(title)) == Sanitise(title)
  {
    SanitiseKeepsSafe(Sanitise(title));
  }

  /** Where a comic is saved: the directory, the number padded to four digits, the site name, the title, the extension. */
  function FormatFilename(num: nat, title: string): string {
    Directory + Decimal.ZeroPad(num, IdWidth) + Separator + title + Extension
  }

  /** Reads a name of the form `FormatFilename` builds back into the comic number and title. */
  function ParseFilename(f: string): Option<(nat, string)> {
    if |f| < |Directory| + |Extension| || !StartsWith(f, Directory) || f[|f| - |Extension|..] != Extension then None
    else
      var body := f[|Directory|..|f| - |Extension|];
      var k := Decimal.DigitRun(body);
      if k == 0 || !StartsWith(body[k..], Separator) then None
      else Some((Decimal.Value(body[..k]), body[k + |Separator|..]))
  }

  /** The file name records the comic number and the title it was built from. */
  lemma FilenameRoundTrip(num: nat, title: string)
    ensures ParseFilename(FormatFilename(num, title)) == Some((num, title))
  {
    var id := Decimal.ZeroPad(num, IdWidth);
    var f := FormatFilename(num, title);
    assert f == Directory + (id + Separator + title) + Extension;
    var body := f[|Directory|..|f| - |Extension|];
    assert body == id + (Separator + title);
    Decimal.DigitRunOfNumeral(id, Separator + title);
    assert body[..|id|] == id;
    assert body[|id|..] == Separator + title;
  }

  /** Different comics are written to different files. */
  lemma FilenamesDistinct(m: nat, n: nat, s: string, t: string)
    requires FormatFilename(m, s) == FormatFilename(n, t)
    ensures m == n && s == t
  {
    FilenameRoundTrip(m, s);
    FilenameRoundTrip(n, t);
  }

  /**
   Everything `_save_comic` computes before its second request: the shape
   check first, then the image URL, then the title and the file name.
   */
  function Prepare(num: nat, page: Page): (r: Result<Plan, ComicError>)
    ensures page.comic.Some? && page.comic.value.childCount != RegularChildCount ==> r == Err(NotRegularComic)
    ensures r.Ok? <==>
      && page.comic.Some?
      && page.comic.value.childCount == RegularChildCount
      && page.comic.value.imageSrc.Some?
      && page.title.Some?
      && Contains(page.title.value, TitlePrefix)
    ensures r.Ok? ==> StartsWith(r.value.imageUrl, Scheme)
    ensures r.Ok? ==> r.value.imageUrl == NormaliseImageUrl(page.comic.value.imageSrc.value)
    ensures r.Ok? ==> r.value.filename == FormatFilename(num, Sanitise(ExtractTitle(page.title.value).value))
    ensures r.Ok? ==>
      ParseFilename(r.value.filename) == Some((num, Sanitise(ExtractTitle(page.title.value).value)))
  {
    match page.comic
    case None => Err(NoComicContainer)
    case Some(comic) =>
      if comic.childCount != RegularChildCount then Err(NotRegularComic)
      else match comic.imageSrc
        case None => Err(NoImageSource)
        case Some(src) =>
          var imageUrl := NormaliseImageUrl(src);
          match page.title
          case None => Err(NoTitle)
          case Some(text) =>
            match ExtractTitle(text)
            case Err(e) => Err(e)
            case Ok(name) =>
              var title := Sanitise(name);
              FilenameRoundTrip(num, title);
              Ok(Plan(imageUrl, FormatFilename(num, title)))
  }

  /**
   `save_comic(num)`: never raises; returns the comic number with no error
   exactly when the page was fetched, has the regular shape, and the image
   was downloaded and written.
   */
  function SaveComic(num: nat, net: Network): (r: SaveResult)
    ensures r.num == num
    ensures r.error.None? <==>
      && net.page(PageUrl(num)).Ok?
      && Prepare(num, net.page(PageUrl(num)).value).Ok?
      && net.download(Prepare(num, net.page(PageUrl(num)).value).value).None?
    ensures net.page(PageUrl(num)).Ok? && Prepare(num, net.page(PageUrl(num)).value).Err? ==>
      r.error == Some(Prepare(num, net.page(PageUrl(num)).value).error)
  {
    match net.page(PageUrl(num))
    case Err(reason) => SaveResult(num, Some(PageRequestFailed(reason)))
    case Ok(page) =>
      match Prepare(num, page)
      case Err(e) => SaveResult(num, Some(e))
      case Ok(plan) =>
        match net.download(plan)
        case Some(reason) => SaveResult(num, Some(DownloadFailed(reason)))
        case None => SaveResult(num, None)
  }
}

=== FILE: results.dfy ===
/** Failure-carrying wrappers shared by the whole model. */
module Results {

  /** A value that may be absent; stands for Python's `None`. */
  datatype Option<+T> = None | Some(value: T)

  /** The outcome of a step that either produces a value or raises an error. */
  datatype Result<+T, +E> = Ok(value: T) | Err(error: E)
}

=== FILE: scheduler.dfy ===
/**
 The run over a range of comics: `save_comics` in xkcd.py.

 The green pool's `imap` hands back the results of `save_comic` in the
 order of the comic numbers, so the run is a left fold of `Record` over that
 sequence of results. A keyboard interrupt ends the fold after some prefix
 of it; the counters are returned as they stand.
 */
module Scheduler {
  import opened Results
  import opened Fetcher

  /** The cap on simultaneous downloads: one open file per coroutine. */
  const MaximumFileObjects: nat := 255

  /** The three counters `save_comics` returns: `successful`, `failed`, `to_go`. */
  datatype Summary = Summary(successful: nat, failed: nat, toGo: int)

  /** The size of the green pool: the number to go, capped at the file-object limit. */
  function PoolSize(toGo: int): (size: int)
    ensures size <= MaximumFileObjects
    ensures size <= toGo
    ensures 0 < toGo ==> 0 < size
    ensures toGo <= MaximumFileObjects ==> size == toGo
    ensures MaximumFileObjects <= toGo ==> size == MaximumFileObjects
  {
    if toGo < MaximumFileObjects then toGo else MaximumFileObjects
  }

  /** The `ValueError` with which `eventlet.GreenPool` refuses a negative size. */
  datatype PoolError = NegativePoolSize(size: int)

  /**
   Opening the green pool for `toGo` comics: the pool's size, or the error
   for a negative size, which happens exactly when the range is reversed.
   */
  function OpenPool(toGo: int): (r: Result<nat, PoolError>)
    ensures r.Ok? <==> 0 <= toGo
    ensures r.Ok? ==> r.value == PoolSize(toGo)
    ensures r.Err? ==> r.error == NegativePoolSize(toGo)
  {
    var size := PoolSize(toGo);
    if size < 0 then Err(NegativePoolSize(size)) else Ok(size)
  }

  /** How many comics the inclusive range from `start` to `end` holds; none when it is reversed. */
  function Workload(start: nat, end: nat): (n: nat)
    ensures start <= end + 1 ==> n == end + 1 - start
    ensures end + 1 < start ==> n == 0
  {
    if end + 1 < start then 0 else end + 1 - start
  }

  /** The counters before the first result arrives. */
  function Initial(start: nat, end: nat): Summary {
    Summary(0, 0, end + 1 - start)
  }

  /** One pass of the loop body: count the result as a success or a failure, and one fewer to go. */
  function Record(s: Summary, r: SaveResult): (t: Summary)
    ensures t.successful + t.failed + t.toGo == s.successful + s.failed + s.toGo
    ensures t.toGo == s.toGo - 1
    ensures r.error.None? ==> t.successful == s.successful + 1 && t.failed == s.failed
    ensures r.error.Some? ==> t.failed == s.failed + 1 && t.successful == s.successful
  {
    if r.error.None? then Summary(s.successful + 1, s.failed, s.toGo - 1)
    else Summary(s.successful, s.failed + 1, s.toGo - 1)
  }

  /** The loop run over a sequence of results, in order. */
  function Fold(s: Summary, rs: seq<SaveResult>): Summary
    decreases |rs|
  {
    if |rs| == 0 then s else Fold(Record(s, rs[0]), rs[1..])
  }

  /** How many of the results failed (`failed`) or succeeded (`!failed`). */
  function Count(rs: seq<SaveResult>, failed: bool): nat
    decreases |rs|
  {
    if |rs| == 0 then 0
    else (if rs[0].error.Some? == failed then 1 else 0) + Count(rs[1..], failed)
  }

  lemma {:induction false} CountAppend(a: seq<SaveResult>, b: seq<SaveResult>, failed: bool)
    ensures Count(a + b, failed) == Count(a, failed) + Count(b, failed)
    decreases |a|
  {
    if |a| == 0 {
      assert a + b == b;
    } else {
      assert (a + b)[1..] == a[1..] + b;
      CountAppend(a[1..], b, failed);
    }
  }

  /** No result of the other kind is counted as one of this kind. */
  lemma {:induction false} CountNone(rs: seq<SaveResult>, failed: bool)
    requires forall i :: 0 <= i < |rs| ==> rs[i].error.Some? != failed
    ensures Count(rs, failed) == 0
    decreases |rs|
  {
    if |rs| > 0 {
      CountNone(rs[1..], failed);
    }
  }

  /** Every result is either a success or a failure, never both. */
  lemma {:induction false} CountPartition(rs: seq<SaveResult>)
    ensures Count(rs, false) + Count(rs, true) == |rs|
    decreases |rs|
  {
    if |rs| > 0 {
      CountPartition(rs[1..]);
    }
  }

  /** The fold adds the successes to `successful`, the failures to `failed`, and takes one off `to_go` per result. */
  lemma {:induction false} FoldCounts(s: Summary, rs: seq<SaveResult>)
    ensures Fold(s, rs) == Summary(s.successful + Count(rs, false), s.failed + Count(rs, true), s.toGo - |rs|)
    decreases |rs|
  {
    if |rs| > 0 {
      FoldCounts(Record(s, rs[0]), rs[1..]);
    }
  }

  /** Taking the same element out of two permutations of each other leaves permutations of each other. */
  lemma RemoveMatching<T>(a: seq<T>, b: seq<T>, j: nat)
    requires multiset(a) == multiset(b)
    requires 0 < |a| && j < |b| && b[j] == a[0]
    ensures multiset(a[1..]) == multiset(b[..j] + b[j + 1..])
  {
    assert a == [a[0]] + a[1..];
    assert b == b[..j] + [b[j]] + b[j + 1..];
    calc {
      multiset(a[1..]);
      multiset(a) - multiset([a[0]]);
      multiset(b) - multiset([b[j]]);
      multiset(b[..j]) + multiset(b[j + 1..]);
      multiset(b[..j] + b[j + 1..]);
    }
  }

  /** The counts do not depend on the order in which the results arrive. */
  lemma {:induction false} CountPermutation(a: seq<SaveResult>, b: seq<SaveResult>, failed: bool)
    requires multiset(a) == multiset(b)
    ensures Count(a, failed) == Count(b, failed)
    decreases |a|
  {
    if |a| == 0 {
      assert |b| == |multiset(b)|;
    } else {
      var x := a[0];
      assert x in multiset(a);
      assert x in multiset(b);
      var j :| 0 <= j < |b| && b[j] == x;
      var before, after := b[..j], b[j + 1..];
      assert b == before + [x] + after;
      RemoveMatching(a, b, j);
      CountPermutation(a[1..], before + after, failed);
      CountAppend(before, after, failed);
      CountAppend(before + [x], after, failed);
      CountAppend(before, [x], failed);
    }
  }

  /** Completing the downloads in any other order ends with the same counters. */
  lemma FoldOrderIndependent(s: Summary, a: seq<SaveResult>, b: seq<SaveResult>)
    requires multiset(a) == multiset(b)
    ensures Fold(s, a) == Fold(s, b)
  {
    FoldCounts(s, a);
    FoldCounts(s, b);
    CountPermutation(a, b, false);
    CountPermutation(a, b, true);
    assert |a| == |multiset(a)| == |multiset(b)| == |b|;
  }

  /** The results the pool hands back for `count` comics from `start` on, in the order of the comic numbers. */
  function Outcomes(start: nat, count: nat, net: Network): (rs: seq<SaveResult>)
    ensures |rs| == count
  {
    seq(count, i requires 0 <= i < count => SaveComic(start + i, net))
  }

  /** The `k`-th result the pool hands back is the one for comic `start + k`. */
  lemma OutcomesInOrder(start: nat, count: nat, net: Network, k: nat)
    requires k < count
    ensures Outcomes(start, count, net)[k] == SaveComic(start + k, net)
  {
  }

  /** Counting one more result of a sequence adds one to the count of its kind. */
  lemma CountStep(rs: seq<SaveResult>, i: nat)
    requires i < |rs|
    ensures Count(rs[..i + 1], false) == Count(rs[..i], false) + (if rs[i].error.None? then 1 else 0)
    ensures Count(rs[..i + 1], true) == Count(rs[..i], true) + (if rs[i].error.Some? then 1 else 0)
  {
    assert rs[..i + 1] == rs[..i] + [rs[i]];
    CountAppend(rs[..i], [rs[i]], false);
    CountAppend(rs[..i], [rs[i]], true);
  }

  /**
   How many results the loop takes before it stops: all `total` of them, or
   the `k` that arrived before a keyboard interrupt.
   */
  function Consumed(total: nat, interrupt: Option<nat>): (k: nat)
    ensures k <= total
    ensures k < total <==> interrupt.Some? && interrupt.value < total
    ensures k < total ==> k == interrupt.value
  {
    if interrupt.Some? && interrupt.value < total then interrupt.value else total
  }

  /** The counters `save_comics` returns, as the fold over the results it consumed. */
  function Tally(start: nat, end: nat, net: Network, interrupt: Option<nat>): (s: Summary)
    ensures
      var n := Workload(start, end);
      var done := Outcomes(start, n, net)[..Consumed(n, interrupt)];
      && s.successful == Count(done, false)
      && s.failed == Count(done, true)
      && s.toGo == end + 1 - start - |done|
    ensures s.successful + s.failed + s.toGo == end + 1 - start
  {
    var n := Workload(start, end);
    var done := Outcomes(start, n, net)[..Consumed(n, interrupt)];
    FoldCounts(Initial(start, end), done);
    CountPartition(done);
    Fold(Initial(start, end), done)
  }

  /**
   `save_comics(start, end)`: the size it asks the pool for, and the
   counters it returns, or the error with which opening the pool fails.
   `interrupt` is the number of results that arrive before the user
   interrupts the run, if the user does.
   */
  method SaveComics(start: nat, end: nat, net: Network, interrupt: Option<nat>)
    returns (r: Result<Summary, PoolError>, poolSize: int)
    ensures poolSize == PoolSize(end + 1 - start)
    ensures start <= end ==> 1 <= poolSize <= Workload(start, end)
    ensures r.Err? <==> end + 1 < start
    ensures r.Err? ==> r.error == NegativePoolSize(end + 1 - start)
    ensures r.Ok? ==> r.value == Tally(start, end, net, interrupt)
    ensures r.Ok? ==> r.value.successful + r.value.failed + r.value.toGo == end + 1 - start
    ensures r.Ok? ==> 0 <= r.value.toGo
    ensures r.Ok? ==> (r.value.toGo == 0 <==> interrupt.None? || end + 1 - start <= interrupt.value)
  {
    var toGo: int := end + 1 - start;
    var n := Workload(start, end);
    poolSize := PoolSize(toGo);
    match OpenPool(toGo)
    case Err(e) => return Err(e), poolSize;
    case Ok(_) =>
    ghost var results := Outcomes(start, n, net);
    var successful, failed := 0, 0;
    var i := 0;
    while i < n
      invariant i <= Consumed(n, interrupt)
      invariant successful == Count(results[..i], false)
      invariant failed == Count(results[..i], true)
      invariant toGo == end + 1 - start - i
    {
      if interrupt == Some(i) {
        break;
      }
      var result := SaveComic(start + i, net);
      OutcomesInOrder(start, n, net, i);
      CountStep(results, i);
      if result.error.None? {
        successful := successful + 1;
      } else {
        failed := failed + 1;
      }
      toGo := toGo - 1;
      i := i + 1;
    }
    assert i == Consumed(n, interrupt);
    var summary := Summary(successful, failed, toGo);
    CountPartition(results[..i]);
    assert summary == Tally(start, end, net, interrupt);
    r := Ok(summary);
  }
}

=== FILE: strings.dfy ===
/**
 Searching, splitting and joining strings with the semantics of Python's
 `in`, `str.find`, `str.split(sep)` and `sep.join(parts)` for a non-empty
 separator.
 */
module Strings {
  import opened Results

  /** `pat` occurs in `s` starting at index `i`. */
  predicate OccursAt(s: string, pat: string, i: int) {
    0 <= i && i + |pat| <= |s| && s[i..i + |pat|] == pat
  }

  /** Python's `pat in s`. */
  predicate Contains(s: string, pat: string) {
    exists i :: 0 <= i <= |s| && OccursAt(s, pat, i)
  }

  /** `p` is a prefix of `s`. */
  predicate StartsWith(s: string, p: string) {
    |p| <= |s| && s[..|p|] == p
  }

  /** Occurrences in `s` at positions from 1 on are the occurrences in `s[1..]`, shifted by one. */
  lemma OccurrencesShift(s: string, pat: string)
    requires |s| > 0
    ensures forall i :: 1 <= i ==> (OccursAt(s, pat, i) <==> OccursAt(s[1..], pat, i - 1))
  {
    forall i | 1 <= i
      ensures OccursAt(s, pat, i) <==> OccursAt(s[1..], pat, i - 1)
    {
      if i + |pat| <= |s| {
        var here, there := s[i..i + |pat|], s[1..][i - 1..i - 1 + |pat|];
        assert forall k :: 0 <= k < |pat| ==> here[k] == there[k];
      }
    }
  }

  /** Python's `s.find(pat)`, with `None` in place of -1: the leftmost occurrence. */
  function IndexOf(s: string, pat: string): (r: Option<nat>)
    ensures r.Some? ==> OccursAt(s, pat, r.value)
    ensures r.Some? ==> forall j :: 0 <= j < r.value ==> !OccursAt(s, pat, j)
    ensures r.None? <==> !Contains(s, pat)
    decreases |s|
  {
    if |s| < |pat| then None
    else if s[..|pat|] == pat then Some(0)
    else
      OccurrencesShift(s, pat);
      match IndexOf(s[1..], pat)
      case None => None
      case Some(j) => Some(j + 1)
  }

  /** An occurrence with none before it is the one `IndexOf` finds. */
  lemma FirstOccurrence(s: string, pat: string, i: nat)
    requires OccursAt(s, pat, i)
    requires forall j :: 0 <= j < i ==> !OccursAt(s, pat, j)
    ensures IndexOf(s, pat) == Some(i)
  {
  }

  /** A prefix that ends before the first occurrence of `pat` holds no occurrence of it. */
  lemma NoOccurrenceInPrefix(s: string, pat: string, i: nat)
    requires |pat| > 0 && i <= |s|
    requires forall j :: 0 <= j < i ==> !OccursAt(s, pat, j)
    ensures !Contains(s[..i], pat)
  {
    forall j | 0 <= j
      ensures !OccursAt(s[..i], pat, j)
    {
      if j + |pat| <= i {
        assert s[..i][j..j + |pat|] == s[j..j + |pat|];
        assert !OccursAt(s, pat, j);
      }
    }
  }

  /** An occurrence of `pat` followed by a prefix of what comes after it is an occurrence of both together. */
  lemma OccurrenceExtends(s: string, pat: string, i: int, next: string)
    requires OccursAt(s, pat, i)
    requires StartsWith(s[i + |pat|..], next)
    ensures OccursAt(s, pat + next, i)
  {
    assert s[i..i + |pat + next|] == s[i..i + |pat|] + s[i + |pat|..][..|next|];
  }

  /** An occurrence in a suffix of `s` is an occurrence in `s`, shifted by where the suffix starts. */
  lemma {:induction false} OccurrenceInSuffix(s: string, pat: string, j: nat, k: nat)
    requires j <= |s|
    requires OccursAt(s[j..], pat, k)
    ensures OccursAt(s, pat, j + k)
  {
    assert s[j + k..j + k + |pat|] == s[j..][k..k + |pat|];
  }

  /** Python's `s.split(sep)` for a non-empty separator. */
  function Split(s: string, sep: string): (parts: seq<string>)
    requires |sep| > 0
    ensures |parts| >= 1
    ensures |parts| == 1 <==> !Contains(s, sep)
    ensures StartsWith(s, parts[0])
    ensures forall k :: 0 <= k < |parts| ==> !Contains(parts[k], sep)
    decreases |s|
  {
    match IndexOf(s, sep)
    case None => [s]
    case Some(i) =>
      NoOccurrenceInPrefix(s, sep, i);
      [s[..i]] + Split(s[i + |sep|..], sep)
  }

  /**
   The first piece of a split runs up to the first occurrence of the
   separator, or to the end when there is none.
   */
  lemma FirstPiece(s: string, sep: string)
    requires |sep| > 0
    ensures IndexOf(s, sep).None? ==> Split(s, sep)[0] == s
    ensures IndexOf(s, sep).Some? ==> Split(s, sep)[0] == s[..IndexOf(s, sep).value]
  {
  }

  /** The second piece of a split is the first piece of the split of what follows the first separator. */
  lemma {:induction false} SecondPiece(s: string, sep: string, i: nat)
    requires |sep| > 0 && IndexOf(s, sep) == Some(i)
    ensures i + |sep| <= |s|
    ensures |Split(s, sep)| >= 2
    ensures Split(s, sep)[1] == Split(s[i + |sep|..], sep)[0]
  {
    var tail := Split(s[i + |sep|..], sep);
    var parts := Split(s, sep);
    assert parts == [s[..i]] + tail;
    assert parts[1] == tail[0];
  }

  /** `a` can be obtained from `b` by deleting elements. */
  predicate IsSubsequence<T(==)>(a: seq<T>, b: seq<T>)
    decreases |b|
  {
    if |a| == 0 then true
    else if |b| == 0 then false
    else if a[0] == b[0] then IsSubsequence(a[1..], b[1..])
    else IsSubsequence(a, b[1..])
  }

  /** Python's `sep.join(parts)`. */
  function Join(parts: seq<string>, sep: string): string
    decreases |parts|
  {
    if |parts| == 0 then ""
    else if |parts| == 1 then parts[0]
    else parts[0] + sep + Join(parts[1..], sep)
  }

  /** A string is the text before an occurrence, the occurrence, and the text after it. */
  lemma AroundOccurrence(s: string, pat: string, i: int)
    requires OccursAt(s, pat, i)
    ensures s == s[..i] + pat + s[i + |pat|..]
  {
    assert s == s[..i] + s[i..i + |pat|] + s[i + |pat|..];
  }

  /** Joining a piece in front of a non-empty list puts one separator between them. */
  lemma JoinCons(head: string, tail: seq<string>, sep: string)
    requires |tail| >= 1
    ensures Join([head] + tail, sep) == head + sep + Join(tail, sep)
  {
    assert ([head] + tail)[1..] == tail;
  }

  /** Joining the pieces of a split puts the joiner where the first separator was, and joins the rest the same way. */
  lemma {:induction false} JoinAtFirst(s: string, sep: string, joiner: string, i: nat)
    requires |sep| > 0 && IndexOf(s, sep) == Some(i)
    ensures i + |sep| <= |s|
    ensures Join(Split(s, sep), joiner) == s[..i] + joiner + Join(Split(s[i + |sep|..], sep), joiner)
  {
    var tail := Split(s[i + |sep|..], sep);
    var parts := Split(s, sep);
    assert parts == [s[..i]] + tail;
    JoinCons(s[..i], tail, joiner);
  }

  /** Joining the pieces of a split with the same separator gives back the original string. */
  lemma {:induction false} JoinSplit(s: string, sep: string)
    requires |sep| > 0
    ensures Join(Split(s, sep), sep) == s
    decreases |s|
  {
    var found := IndexOf(s, sep);
    if found.Some? {
      var i := found.value;
      JoinAtFirst(s, sep, sep, i);
      JoinSplit(s[i + |sep|..], sep);
      AroundOccurrence(s, sep, i);
    }
  }

  /** A string without the separator splits into itself alone. */
  lemma SplitWithoutSeparator(s: string, sep: string)
    requires |sep| > 0
    requires !Contains(s, sep)
    ensures Split(s, sep) == [s]
  {
  }

  /** A separator at the very front splits off an empty first piece. */
  lemma SplitLeadingSeparator(w: string, sep: string)
    requires |sep| > 0
    ensures Split(sep + w, sep) == [""] + Split(w, sep)
  {
    var s := sep + w;
    assert OccursAt(s, sep, 0);
    assert s[|sep|..] == w;
  }

  /** Python's `s.replace(target, replacement)` for a non-empty target: leftmost, non-overlapping occurrences replaced. */
  function Replace(s: string, target: string, replacement: string): string
    requires |target| > 0
  {
    Join(Split(s, target), replacement)
  }
}
